=== FILE: README.md ===
# decimal-input, modelled in Dafny

A model of the core of `decimal-input`, a React text-input control that accepts only decimal-number syntax.
The model has two parts.

- **The syntax engine of `model.ts`.** `isValidDecimalInput` accepts six forgivable partial tokens (`""`, `"."`, `"-"`, `"+"`, `"-."`, `"+."`) and every match of `^[+-]?([0-9]+([.][0-9]*)?|[.][0-9]+)$`. The guards `isValidNumber`, `getFormatter` and `getValidator` are modelled too.
- **The state machine of `DecimalInput.tsx`.** The component keeps two strings, `displayValue` and `rawInputValue`. It tells its host about values through `onChange` and `onValidChange`. Mount, change, focus and blur are each a pure function from a state to the next state and the notifications sent, in order.

Files:

- `wrappers.dfy`: `Option`, which stands for `undefined`.
- `decimal_syntax.dfy` (module `DecimalSyntax`): the regular expression, written as one predicate per alternative. It also holds `WellShaped`, a positional description of the same language, with a proof that the two agree. The proof gives prefix closure and the rejection rules.
- `decimal_scanner.dfy` (module `DecimalScanner`): a six-phase automaton and an executable left-to-right scanner, proved equal to the grammar.
- `decimal_scenarios.dfy` (module `DecimalScenarios`): the `isValidDecimalInput` scenario table of `model.test.ts`, as lemmas.
- `guards.dfy` (module `Guards`): an abstract `Number` that is NaN, an infinity or finite, and the three guards.
- `controller.dfy` (module `Controller`):
  - the `DecimalInput` transitions;
  - the host's "last value wins" view of the notifications;
  - invariants kept across any run of events;
  - the theorem that, with a prefix-closed input validator (the general decimal-syntax check is one), any text it accepts can be typed one character at a time without a blocked keystroke.

Things the component gets from elsewhere are fields of a `Config`:
- the combined input validator (`DecimalInput.tsx:44-51`);
- `parseFloat`;
- `Number.prototype.toString`;
- the caller's `format`;
- the value validator (`DecimalInput.tsx:43`).

The blur handler reads `e.target.value`. For this controlled input that value is the displayed text, and the model uses it.

Two behaviours of the code worth noting:
- `isValidNumber` rejects NaN only (`model.ts:12`). Both infinities are valid numbers and are formatted (`Guards.InfinityIsValid`).
- Clearing sends only `onChange(undefined)` (`DecimalInput.tsx:79-83`). It sends no validity notification.

## Model

| member | source | states |
|---|---|---|
| DecimalSyntax.MatchesDecimalRe | src/decimal-input/model.ts:2 | A string matches `decimalRe` exactly when it is well shaped (digits and dots, a sign only in first position, at most one dot) and holds at least one digit |
| DecimalSyntax.IsValidDecimalInput | src/decimal-input/model.ts:1-9 | The `exceptions` list holds exactly the accepted inputs without a digit, so no exception matches `decimalRe` |
| DecimalSyntax.ValidIffWellShaped | src/decimal-input/model.ts:1-9 | A string is accepted (exception or regex match) exactly when every character is a digit, a dot, or a sign in first position, and it holds at most one dot |
| DecimalSyntax.ForeignCharacterRejected | src/decimal-input/model.ts:2 | A character outside `0-9 + - .` anywhere makes the input unacceptable ("foo", "foo1", "1foo") |
| DecimalSyntax.MisplacedSignRejected | src/decimal-input/model.ts:2 | A sign anywhere but position 0 makes the input unacceptable |
| DecimalSyntax.SecondDotRejected | src/decimal-input/model.ts:2 | Two dots make the input unacceptable ("1.1.") |
| DecimalSyntax.PrefixClosed | src/decimal-input/model.ts:1-8 | Every prefix of an acceptable input is acceptable; the exception list is what makes the regex's language prefix closed |
| DecimalSyntax.DigitCompletes | src/decimal-input/model.ts:1-2 | An input is acceptable iff appending one digit turns it into a full regex match; an input is an exception exactly when it is acceptable and does not match |
| DecimalScanner.RunClassifies | src/decimal-input/model.ts:2 | After reading any string, the automaton is in the phase that describes that string (empty, lone sign, digits, lone dot, fraction, or rejected) |
| DecimalScanner.AcceptsIffValid | src/decimal-input/model.ts:4-9 | The automaton accepts a string iff `isValidDecimalInput` does |
| DecimalScanner.RejectedIsFinal | src/decimal-input/model.ts:2 | Once a prefix is rejected, every extension of it is rejected |
| DecimalScanner.ScanDecimalInput | src/decimal-input/model.ts:4-9 | One left-to-right pass that stops at the first disqualifying character returns exactly `isValidDecimalInput(input)` |
| DecimalScenarios.RejectedScenarios | src/decimal-input/model.test.ts:15-33 | "foo", "foo1", "1foo" and "1.1." are rejected |
| DecimalScenarios.UnsignedScenarios | src/decimal-input/model.test.ts:18-32 | "0", "0.", ".0", "1", "1.", ".1" and "1.1" match the unsigned part of the regular expression and are accepted |
| DecimalScenarios.SignedScenarios | src/decimal-input/model.test.ts:21-35 | The signed test inputs ("-.0" through "+1.1") are accepted |
| DecimalScenarios.ExceptionScenarios | src/decimal-input/model.test.ts:36-41 | The six forgivable tokens are accepted |
| Guards.IsValidNumber | src/decimal-input/model.ts:11-13 | A candidate is valid exactly when it is present and finite or infinite, that is, anything but undefined and NaN |
| Guards.Format | src/decimal-input/model.ts:15-22 | `getFormatter(f)(v)` is "" for undefined and NaN; otherwise it is `f(v)`, or `v.toString()` with no `f`. It is well defined even when `f` is undefined on NaN |
| Guards.Validate | src/decimal-input/model.ts:24-29 | `getValidator(p)(v)` is false on NaN. Without `p` it is exactly "not NaN"; with `p` it is `notNaN(v) && p(v)`. It is well defined when `p` is undefined on NaN, so `p` is never consulted on NaN |
| Guards.FormatIgnoresCallerOffNumbers | src/decimal-input/model.ts:17-20 | Two formatters, whatever their caller functions, can differ only on a valid number |
| Guards.FormatEmptyIffNoNumber | src/decimal-input/model.ts:15-22 | If no formatting function returns "", the formatted text is "" iff there is no valid number |
| Guards.ValidateNarrowsDefault | src/decimal-input/model.ts:24-29 | A caller's predicate can only narrow the default validator, and the default validator is exactly "not NaN" |
| Guards.InfinityIsValid | src/decimal-input/model.ts:11-13 | Infinities pass `isValidNumber` and the default validator, and are formatted |
| Controller.Formatter | src/decimal-input/DecimalInput.tsx:53 | `formatRef.current`: "" for undefined and NaN, the caller's format of a valid number, and the default text when the caller gave no format |
| Controller.DefaultText | src/decimal-input/DecimalInput.tsx:76 | `getFormatter()`: the default string form of a valid number and "" otherwise, whatever the caller's format |
| Controller.Admits | src/decimal-input/DecimalInput.tsx:56-62 | An initial value is taken up exactly when it is present and the input validator accepts its `toString` form |
| Controller.Report | src/decimal-input/DecimalInput.tsx:138-144 | A new number is reported by validity first, then by the value if and only if it is valid |
| Controller.Mount | src/decimal-input/DecimalInput.tsx:55-100 | Undefined or validator-rejected initial value: both texts "", nothing emitted. Otherwise: validity emitted, value emitted only if valid, raw is the default string form, display uses the caller's formatter. The raw text is admissible and every emitted value is valid |
| Controller.Clear | src/decimal-input/DecimalInput.tsx:79-83 | Both texts become "" and the only notification is `onChange(undefined)` |
| Controller.OnChange | src/decimal-input/DecimalInput.tsx:102-145 | "" clears. A rejected keystroke leaves the state unchanged and emits nothing. Accepted text becomes raw and display verbatim, and its parsed value is reported. Only valid values are emitted, and "" never produces a validity notification |
| Controller.OnFocus | src/decimal-input/DecimalInput.tsx:152-155 | The display becomes the raw text; nothing else changes and nothing is emitted |
| Controller.OnBlur | src/decimal-input/DecimalInput.tsx:156-167 | The raw text is never touched. Rejected display text stays. Otherwise the display becomes format(parse(text)) |
| Controller.HandleKeepsRawAdmissible | src/decimal-input/DecimalInput.tsx:102-167 | Every event keeps the raw text empty or validator-accepted, and emits only valid values |
| Controller.RunKeepsInvariants | src/decimal-input/DecimalInput.tsx:55-167 | From mount through any run of events, the raw text stays admissible and the host never receives a value the value validator rejects |
| Controller.ReportedValueIsParsedRaw | src/decimal-input/DecimalInput.tsx:135-144 | Every value a change reports is the parse of the new raw text, and that text passed the input validator |
| Controller.MountReportsInitialValue | src/decimal-input/DecimalInput.tsx:85-100 | The value reported at mount is the initial value. Its string form passed the input validator, and for a non-NaN value that string is the raw text |
| Controller.FocusUndoesBlur | src/decimal-input/DecimalInput.tsx:152-165 | Focusing after a blur gives the same state as focusing without it; blur changes only the display |
| Controller.FocusAfterEditIsIdle | src/decimal-input/DecimalInput.tsx:135-136 | After a clear or an accepted edit, display equals raw, so focusing changes nothing |
| Controller.FocusAfterMountShowsDefaultText | src/decimal-input/DecimalInput.tsx:64-76 | After a mount with an accepted value, focusing shows the value's default string form, not the caller's formatting |
| Controller.ChangeAsSeenByHost | src/decimal-input/DecimalInput.tsx:102-145 | Host view: a clear sets the value to undefined and keeps validity; a rejected edit changes nothing. An accepted edit sets validity, and replaces the value only when valid, otherwise leaving it stale |
| Controller.DeliverKeepsConsistent | src/decimal-input/DecimalInput.tsx:138-144 | A host that is only sent valid values never holds a value the value validator rejects |
| Controller.TypingReportsEveryKeystroke | src/decimal-input/DecimalInput.tsx:109-136 | Typing a text one character at a time emits one validity notification per keystroke iff the input validator accepts every non-empty prefix. The field then holds the text as both raw and display |
| Controller.TypingNeverBlocked | src/decimal-input/DecimalInput.tsx:109-136 | With a prefix-closed input validator, any text it accepts can be typed one character at a time without a blocked keystroke |
| Controller.DecimalGrammarPrefixClosed | src/decimal-input/model.ts:1-8 | The general decimal-syntax check is a prefix-closed input validator |
| Controller.TypingAnyDecimalInput | src/decimal-input/DecimalInput.tsx:102-145 | With the decimal grammar as input validator, every acceptable decimal input can be typed without a blocked keystroke |
| Controller.HandleAsWritten | src/decimal-input/DecimalInput.tsx:147-170 | As rendered, a host-supplied `onFocus`/`onBlur` replaces the component's handler, so that event leaves the state alone; every other event, typing included, reaches the component's own handler |
| Controller.HostOnFocusBlocksEditing | src/decimal-input/DecimalInput.tsx:152-168 | If the host passes `onFocus`, a field blurred to "(20.4)" keeps that text on focus, and inserting "1" before the closing parenthesis gives "(20.41)", which the change handler rejects |
| Controller.FocusResumesEditing | src/decimal-input/DecimalInput.tsx:152-155 | With the component's focus handler, the same field returns to "-20.4" and the keystroke "-20.41" is accepted |

## Left out

- `DecimalInput.tsx` imports `getInputValidator`, `getPrecisionAndScaleValidator` and `getValueValidator` from `./model` (lines 9-14), and the tests import `isValidPositiveDecimalInput` (`model.test.ts:2-6`). Their definitions are not modelled. The combined input validator (`DecimalInput.tsx:44-51`) and the value validator (`DecimalInput.tsx:43`) are opaque `Config` parameters. The two test files also disagree on the signature of `isValidPositiveDecimalInput`.
- Precision and scale limits (`maxPrecision`, `maxScale`) and a host's own `validateInput` are part of the combined input validator, but they are not shown to be prefix closed. A scale limit of 2, for example, blocks the last keystroke of "1.001". The typing theorems therefore assume a prefix-closed validator, and only the general decimal-syntax check is proved to be one.
- Floating point: `parseFloat`, `Number.prototype.toString` and the caller's `format` are uninterpreted parameters. `Number` tells NaN from infinities and finite values, and nothing more. Round trips between parsing and formatting are not modelled.
- Guards.IsValidNumber: takes a number or `undefined` rather than an arbitrary `unknown` value, because every caller in the core passes one of those two.
- The caret repositioning through `requestAnimationFrame` (`DecimalInput.tsx:111-129`). It is cosmetic and carries no state.
- React plumbing:
  - refs and the scheduling of `useState`/`useEffect`;
  - the one-shot mount effect and remounting by `key`, modelled as `Mount` starting a fresh state;
  - JSX rendering;
  - the forwarding calls `props.onFocus?.(e)` and `props.onBlur?.(e)`.
- `onValidChange` is optional in the source. The model always emits the validity notification, and a host without the callback ignores it.
- `src/App.tsx` is a demo harness. It passes `validate=` where the component reads `validateValue`, so the demo's predicates never reach the component.

## Findings

| source | as written | input that shows it | evidently intended | confidence | as-written member | corrected member |
|---|---|---|---|---|---|---|
| src/decimal-input/DecimalInput.tsx:152-168 | `{...props}` is spread after the component's own `onFocus`/`onBlur`, so a host that passes either replaces the component's handler, and `props.onFocus?.(e)` inside it never runs | The host passes `onFocus` and formats negatives as "(20.4)". The field was blurred from raw "-20.4" to "(20.4)". Focus keeps "(20.4)", and inserting "1" before the closing parenthesis gives "(20.41)", which is rejected (at the end it gives "(20.4)1", rejected too) | The component's handler runs, restores the raw text, then forwards to the host's handler | high, not executed | Controller.HostOnFocusBlocksEditing | Controller.FocusResumesEditing |

=== FILE: controller.dfy ===
/**
  The state logic of the `DecimalInput` component: the two text fields it
  keeps (`displayValue` and `rawInputValue`) and the notifications it sends
  to its host (`onChange`, `onValidChange`) on mount, change, focus and blur.

  Everything the component obtains from elsewhere is a parameter held in a
  `Config`: the combined input validator, `parseFloat`, the default number
  to string conversion, the caller's formatter and the value validator. Each
  event is a pure function from the current state to the next state and the
  notifications it emits, in order.
 */
module Controller {
  import opened Wrappers
  import opened Guards
  import DecimalSyntax
  import DecimalScanner

  /** What one mounted component is configured with; fixed for the mount. */
  datatype Config = Config(
    acceptsInput: string -> bool,      // the combined input validator
    parse: string -> Number,           // `parseFloat`
    toText: Number -> string,          // `Number.prototype.toString`
    format: Option<Number -> string>,  // the caller's `format`, if any
    acceptsValue: Number -> bool)      // the value validator

  /** The component's state: the text shown and the text last typed. */
  datatype State = State(display: string, raw: string)

  /** A call the component makes on its host. */
  datatype Notification =
    | ValueChanged(value: Option<Number>)  // `onChange(value)`
    | ValidityChanged(valid: bool)         // `onValidChange(valid)`

  /** The outcome of one event: the next state and what the host was told. */
  datatype Transition = Transition(next: State, emitted: seq<Notification>)

  datatype Event = Typed(text: string) | Focused | Blurred

  const Empty := State("", "")

  /**
    `formatRef.current`: the caller's formatter behind the NaN guard. Without
    a caller formatter it is the default text.
   */
  function Formatter(cfg: Config, value: Option<Number>): (r: string)
    ensures !IsValidNumber(value) ==> r == ""
    ensures IsValidNumber(value) && cfg.format.Some? ==> r == cfg.format.value(value.value)
    ensures cfg.format.None? ==> r == DefaultText(cfg, value)
  {
    Format(cfg.format, cfg.toText, value)
  }

  /**
    The text shown for a value with no caller formatter, `getFormatter()`:
    the default string form of a valid number, and "" otherwise. The
    caller's formatter is never consulted.
   */
  function DefaultText(cfg: Config, value: Option<Number>): (r: string)
    ensures IsValidNumber(value) ==> r == cfg.toText(value.value)
    ensures !IsValidNumber(value) ==> r == ""
  {
    Format(None, cfg.toText, value)
  }

  /**
    Whether an initial value survives the input validator in its string form.
    The string tested is `toString`'s, even for NaN, never the formatted text.
   */
  function Admits(cfg: Config, initialValue: Option<Number>): (r: bool)
    ensures initialValue.None? ==> !r
    ensures initialValue.Some? ==> (r <==> cfg.acceptsInput(cfg.toText(initialValue.value)))
  {
    initialValue.Some? && cfg.acceptsInput(cfg.toText(initialValue.value))
  }

  /**
    The notifications that report a newly obtained number: validity always,
    and the number itself only when the value validator accepts it.
   */
  function Report(cfg: Config, v: Number): (r: seq<Notification>)
    ensures |r| > 0 && r[0] == ValidityChanged(cfg.acceptsValue(v))
    ensures forall n | n in r && n.ValueChanged? :: n.value == Some(v)
    ensures ValueChanged(Some(v)) in r <==> cfg.acceptsValue(v)
  {
    var valid := cfg.acceptsValue(v);
    [ValidityChanged(valid)] + (if valid then [ValueChanged(Some(v))] else [])
  }

  /** Every number the host is told about passes the value validator. */
  predicate ValuesAccepted(cfg: Config, ns: seq<Notification>) {
    forall n | n in ns && n.ValueChanged? && n.value.Some? :: cfg.acceptsValue(n.value.value)
  }

  /** The raw text is empty or passes the input validator. */
  predicate RawAdmissible(cfg: Config, s: State) {
    s.raw == "" || cfg.acceptsInput(s.raw)
  }

  /**
    Mounting: the initial state of both text fields and the mount effect.
    An absent initial value, or one whose string form the input validator
    rejects, leaves both fields empty and tells the host nothing. Otherwise
    the host learns the validity and, if valid, the value; the raw text is
    the default string form and the display uses the caller's formatter.
   */
  function Mount(cfg: Config, initialValue: Option<Number>): (t: Transition)
    ensures !Admits(cfg, initialValue) ==> t.next == Empty && t.emitted == []
    ensures Admits(cfg, initialValue) ==>
              && t.emitted == Report(cfg, initialValue.value)
              && t.next.raw == DefaultText(cfg, initialValue)
              && t.next.display == Formatter(cfg, initialValue)
    ensures RawAdmissible(cfg, t.next)
    ensures ValuesAccepted(cfg, t.emitted)
  {
    if !Admits(cfg, initialValue) then Transition(Empty, [])
    else
      Transition(State(Formatter(cfg, initialValue), DefaultText(cfg, initialValue)),
                 Report(cfg, initialValue.value))
  }

  /** `clear`: both fields emptied, and the host told there is no value. */
  function Clear(): (t: Transition)
    ensures t.next == Empty && t.emitted == [ValueChanged(None)]
  {
    Transition(Empty, [ValueChanged(None)])
  }

  /**
    `handleChange`: the text field now holds `text`. Empty text clears.
    Text the input validator rejects changes nothing and tells the host
    nothing. Accepted text becomes both the raw and the displayed text
    verbatim, and its parsed number is reported.
   */
  function OnChange(cfg: Config, s: State, text: string): (t: Transition)
    ensures text == "" ==> t == Clear()
    ensures text != "" && !cfg.acceptsInput(text) ==> t.next == s && t.emitted == []
    ensures text != "" && cfg.acceptsInput(text) ==>
              && t.next == State(text, text)
              && t.emitted == Report(cfg, cfg.parse(text))
    ensures ValuesAccepted(cfg, t.emitted)
    ensures forall n | n in t.emitted :: n.ValidityChanged? ==> text != ""
  {
    if text == "" then Clear()
    else if !cfg.acceptsInput(text) then Transition(s, [])
    else Transition(State(text, text), Report(cfg, cfg.parse(text)))
  }

  /** `onFocus`: the user edits the raw text, not its formatted form. */
  function OnFocus(s: State): (t: Transition)
    ensures t.next.display == s.raw && t.next.raw == s.raw
    ensures t.emitted == []
  {
    Transition(State(s.raw, s.raw), [])
  }

  /**
    `onBlur`: the displayed text (the input element's value) is parsed and
    shown formatted, unless the input validator rejects it, in which case
    nothing happens. The raw text is never touched.
   */
  function OnBlur(cfg: Config, s: State): (t: Transition)
    ensures t.next.raw == s.raw && t.emitted == []
    ensures !cfg.acceptsInput(s.display) ==> t.next == s
    ensures cfg.acceptsInput(s.display) ==>
              t.next.display == Formatter(cfg, Some(cfg.parse(s.display)))
  {
    if !cfg.acceptsInput(s.display) then Transition(s, [])
    else Transition(State(Formatter(cfg, Some(cfg.parse(s.display))), s.raw), [])
  }

  function Handle(cfg: Config, s: State, e: Event): Transition {
    match e
    case Typed(text) => OnChange(cfg, s, text)
    case Focused => OnFocus(s)
    case Blurred => OnBlur(cfg, s)
  }

  /** A run of events from state `s`: the final state and everything emitted, in order. */
  function Replay(cfg: Config, s: State, events: seq<Event>): Transition
    decreases |events|
  {
    if |events| == 0 then Transition(s, [])
    else
      var before := Replay(cfg, s, events[..|events| - 1]);
      var last := Handle(cfg, before.next, events[|events| - 1]);
      Transition(last.next, before.emitted + last.emitted)
  }

  // ---------------------------------------------------------------------
  // Invariants kept by every event
  // ---------------------------------------------------------------------

  /** No event ever leaves raw text behind that the input validator rejects. */
  lemma HandleKeepsRawAdmissible(cfg: Config, s: State, e: Event)
    requires RawAdmissible(cfg, s)
    ensures RawAdmissible(cfg, Handle(cfg, s, e).next)
    ensures ValuesAccepted(cfg, Handle(cfg, s, e).emitted)
  {
  }

  /**
    From mount on, through any run of events, the raw text stays admissible
    and the host is never handed a number the value validator rejects.
   */
  lemma {:induction false} RunKeepsInvariants(cfg: Config, initialValue: Option<Number>, events: seq<Event>)
    ensures RawAdmissible(cfg, Replay(cfg, Mount(cfg, initialValue).next, events).next)
    ensures ValuesAccepted(cfg, Replay(cfg, Mount(cfg, initialValue).next, events).emitted)
    decreases |events|
  {
    var start := Mount(cfg, initialValue).next;
    if |events| > 0 {
      var front := events[..|events| - 1];
      RunKeepsInvariants(cfg, initialValue, front);
      var before := Replay(cfg, start, front);
      HandleKeepsRawAdmissible(cfg, before.next, events[|events| - 1]);
    }
  }

  /**
    Every number an accepted edit reports is the parse of the raw text the
    edit left behind, and that raw text passed the input validator.
   */
  lemma ReportedValueIsParsedRaw(cfg: Config, s: State, text: string, x: Number)
    requires ValueChanged(Some(x)) in OnChange(cfg, s, text).emitted
    ensures var next := OnChange(cfg, s, text).next;
            && cfg.acceptsInput(next.raw)
            && x == cfg.parse(next.raw)
            && cfg.acceptsValue(x)
  {
  }

  /**
    The value reported at mount is the initial value itself, and the raw
    text it leaves is that value's string form, which the input validator
    accepted.
   */
  lemma MountReportsInitialValue(cfg: Config, initialValue: Option<Number>, x: Number)
    requires ValueChanged(Some(x)) in Mount(cfg, initialValue).emitted
    ensures initialValue == Some(x) && cfg.acceptsValue(x)
    ensures x != NaN ==> Mount(cfg, initialValue).next.raw == cfg.toText(x)
    ensures cfg.acceptsInput(cfg.toText(x))
  {
  }

  // ---------------------------------------------------------------------
  // Focus and blur
  // ---------------------------------------------------------------------

  /** Focusing undoes whatever blurring displayed: blur only ever changes the display. */
  lemma FocusUndoesBlur(cfg: Config, s: State)
    ensures OnFocus(OnBlur(cfg, s).next) == OnFocus(s)
  {
  }

  /** After an accepted edit the display already is the raw text, so focus changes nothing. */
  lemma FocusAfterEditIsIdle(cfg: Config, s: State, text: string)
    requires text == "" || cfg.acceptsInput(text)
    ensures OnFocus(OnChange(cfg, s, text).next).next == OnChange(cfg, s, text).next
  {
  }

  /** After mounting, focus shows the default string form of the initial value. */
  lemma FocusAfterMountShowsDefaultText(cfg: Config, initialValue: Option<Number>)
    requires Admits(cfg, initialValue)
    ensures OnFocus(Mount(cfg, initialValue).next).next.display == DefaultText(cfg, initialValue)
  {
  }

  // ---------------------------------------------------------------------
  // What the host sees
  // ---------------------------------------------------------------------

  /** The host's record of the last value and validity it was told. */
  datatype Host = Host(value: Option<Number>, valid: bool)

  /** Last value wins: a notification overwrites the one field it concerns. */
  function Receive(h: Host, n: Notification): Host {
    match n
    case ValueChanged(v) => h.(value := v)
    case ValidityChanged(b) => h.(valid := b)
  }

  function Deliver(h: Host, ns: seq<Notification>): Host
    decreases |ns|
  {
    if |ns| == 0 then h else Deliver(Receive(h, ns[0]), ns[1..])
  }

  /** A host whose current value passes the value validator (or is absent). */
  predicate HostConsistent(cfg: Config, h: Host) {
    h.value.Some? ==> cfg.acceptsValue(h.value.value)
  }

  /** Delivering only accepted numbers keeps the host consistent. */
  lemma {:induction false} DeliverKeepsConsistent(cfg: Config, h: Host, ns: seq<Notification>)
    requires HostConsistent(cfg, h)
    requires ValuesAccepted(cfg, ns)
    ensures HostConsistent(cfg, Deliver(h, ns))
    decreases |ns|
  {
    if |ns| > 0 {
      assert ns[0] in ns;
      assert forall n | n in ns[1..] :: n in ns;
      DeliverKeepsConsistent(cfg, Receive(h, ns[0]), ns[1..]);
    }
  }

  /**
    The host's view of one edit. Clearing sets the value to undefined and
    leaves the validity as it was. A rejected edit changes nothing. An
    accepted edit sets the validity from the parsed number, and replaces
    the value only when it is valid; otherwise the old value stays, stale.
   */
  lemma ChangeAsSeenByHost(cfg: Config, s: State, text: string, h: Host)
    ensures var h' := Deliver(h, OnChange(cfg, s, text).emitted);
            && (text == "" ==> h' == Host(None, h.valid))
            && (text != "" && !cfg.acceptsInput(text) ==> h' == h)
            && (text != "" && cfg.acceptsInput(text) ==>
                  var x := cfg.parse(text);
                  && h'.valid == cfg.acceptsValue(x)
                  && h'.value == (if cfg.acceptsValue(x) then Some(x) else h.value))
  {
    var t := OnChange(cfg, s, text);
    if text == "" {
      assert Deliver(h, t.emitted) == Deliver(Host(None, h.valid), []);
    } else if cfg.acceptsInput(text) {
      var x := cfg.parse(text);
      var h1 := h.(valid := cfg.acceptsValue(x));
      assert Deliver(h, t.emitted) == Deliver(h1, t.emitted[1..]);
      if cfg.acceptsValue(x) {
        assert t.emitted[1..] == [ValueChanged(Some(x))];
        assert Deliver(h1, [ValueChanged(Some(x))]) == Deliver(h1.(value := Some(x)), []);
      } else {
        assert t.emitted[1..] == [];
      }
    }
  }

  // ---------------------------------------------------------------------
  // Typing one character at a time
  // ---------------------------------------------------------------------

  /** The change events produced by typing `text` left to right into an empty field. */
  function Keystrokes(text: string): (evs: seq<Event>)
    ensures |evs| == |text|
    decreases |text|
  {
    if |text| == 0 then [] else Keystrokes(text[..|text| - 1]) + [Typed(text)]
  }

  /** How many validity notifications a stream holds: one per accepted edit. */
  function ValidityReports(ns: seq<Notification>): nat
    decreases |ns|
  {
    if |ns| == 0 then 0
    else ValidityReports(ns[..|ns| - 1]) + (if ns[|ns| - 1].ValidityChanged? then 1 else 0)
  }

  lemma {:induction false} ValidityReportsAppend(a: seq<Notification>, b: seq<Notification>)
    ensures ValidityReports(a + b) == ValidityReports(a) + ValidityReports(b)
    decreases |b|
  {
    if |b| > 0 {
      assert (a + b)[..|a + b| - 1] == a + b[..|b| - 1];
      assert (a + b)[|a + b| - 1] == b[|b| - 1];
      ValidityReportsAppend(a, b[..|b| - 1]);
    } else {
      assert a + b == a;
    }
  }

  /** A report holds exactly one validity notification. */
  lemma ReportCountsOnce(cfg: Config, v: Number)
    ensures ValidityReports(Report(cfg, v)) == 1
  {
    var r := Report(cfg, v);
    assert r[..1][..0] == [];
    assert ValidityReports(r[..1]) == 1;
    if cfg.acceptsValue(v) {
      assert r[..|r| - 1] == r[..1];
      assert r[|r| - 1] == ValueChanged(Some(v));
    } else {
      assert r == r[..1];
    }
  }

  /** A non-empty edit reports once when accepted and not at all when rejected. */
  lemma ChangeReports(cfg: Config, s: State, text: string)
    requires text != ""
    ensures ValidityReports(OnChange(cfg, s, text).emitted) == (if cfg.acceptsInput(text) then 1 else 0)
  {
    if cfg.acceptsInput(text) {
      ReportCountsOnce(cfg, cfg.parse(text));
    }
  }

  /** The last keystroke of `text` is the change to `text` itself. */
  lemma KeystrokesSnoc(cfg: Config, s: State, text: string)
    requires text != ""
    ensures var before := Replay(cfg, s, Keystrokes(text[..|text| - 1]));
            var last := OnChange(cfg, before.next, text);
            Replay(cfg, s, Keystrokes(text)) == Transition(last.next, before.emitted + last.emitted)
  {
    var evs := Keystrokes(text);
    assert evs[..|evs| - 1] == Keystrokes(text[..|text| - 1]);
  }

  /** Every validator is consulted on every prefix the user passes through. */
  ghost predicate PrefixesAccepted(accepts: string -> bool, text: string) {
    forall n | 1 <= n <= |text| :: accepts(text[..n])
  }

  lemma PrefixesAcceptedSnoc(accepts: string -> bool, text: string)
    requires |text| > 0
    ensures PrefixesAccepted(accepts, text) <==>
            PrefixesAccepted(accepts, text[..|text| - 1]) && accepts(text)
  {
    var front := text[..|text| - 1];
    assert text[..|text|] == text;
    forall n | 1 <= n <= |front|
      ensures front[..n] == text[..n]
    {
    }
  }

  /**
    Typing `text` one character at a time reports once per keystroke exactly
    when the input validator accepts every non-empty prefix: a keystroke is
    blocked precisely when it produces text the validator rejects. The field
    then holds `text` both as raw and displayed text.
   */
  lemma {:induction false} TypingReportsEveryKeystroke(cfg: Config, s: State, text: string)
    ensures ValidityReports(Replay(cfg, s, Keystrokes(text)).emitted) <= |text|
    ensures ValidityReports(Replay(cfg, s, Keystrokes(text)).emitted) == |text| <==>
            PrefixesAccepted(cfg.acceptsInput, text)
    ensures |text| > 0 && PrefixesAccepted(cfg.acceptsInput, text) ==>
            Replay(cfg, s, Keystrokes(text)).next == State(text, text)
    decreases |text|
  {
    if |text| > 0 {
      var front := text[..|text| - 1];
      TypingReportsEveryKeystroke(cfg, s, front);
      KeystrokesSnoc(cfg, s, text);
      var before := Replay(cfg, s, Keystrokes(front));
      var last := OnChange(cfg, before.next, text);
      ValidityReportsAppend(before.emitted, last.emitted);
      ChangeReports(cfg, before.next, text);
      PrefixesAcceptedSnoc(cfg.acceptsInput, text);
    }
  }

  /** An input validator under which dropping trailing characters never loses acceptance. */
  ghost predicate PrefixClosedValidator(accepts: string -> bool) {
    forall s: string, n: nat | n <= |s| && accepts(s) :: accepts(s[..n])
  }

  /**
    With a prefix-closed input validator, any text it accepts can be typed
    character by character without a single keystroke being blocked.
   */
  lemma TypingNeverBlocked(cfg: Config, s: State, text: string)
    requires PrefixClosedValidator(cfg.acceptsInput)
    requires cfg.acceptsInput(text) && text != ""
    ensures Replay(cfg, s, Keystrokes(text)).next == State(text, text)
    ensures ValidityReports(Replay(cfg, s, Keystrokes(text)).emitted) == |text|
  {
    TypingReportsEveryKeystroke(cfg, s, text);
  }

  /** The general decimal-syntax check is a prefix-closed input validator. */
  lemma DecimalGrammarPrefixClosed()
    ensures PrefixClosedValidator(DecimalScanner.Accepts)
  {
    forall s: string, n: nat | n <= |s| && DecimalScanner.Accepts(s)
      ensures DecimalScanner.Accepts(s[..n])
    {
      DecimalScanner.AcceptsIffValid(s);
      DecimalScanner.AcceptsIffValid(s[..n]);
      DecimalSyntax.PrefixClosed(s, n);
    }
  }

  /**
    With the general decimal-syntax check as the input validator, every
    acceptable decimal input can be typed without a blocked keystroke.
   */
  lemma TypingAnyDecimalInput(cfg: Config, s: State, text: string)
    requires cfg.acceptsInput == DecimalScanner.Accepts
    requires DecimalSyntax.IsValidDecimalInput(text) && text != ""
    ensures Replay(cfg, s, Keystrokes(text)).next == State(text, text)
    ensures ValidityReports(Replay(cfg, s, Keystrokes(text)).emitted) == |text|
  {
    DecimalGrammarPrefixClosed();
    DecimalScanner.AcceptsIffValid(text);
    TypingNeverBlocked(cfg, s, text);
  }

  // ---------------------------------------------------------------------
  // Host-supplied focus and blur handlers
  // ---------------------------------------------------------------------

  /** Whether the host passed its own `onFocus` / `onBlur` among the rest props. */
  datatype HostHandlers = HostHandlers(onFocus: bool, onBlur: bool)

  /**
    Event dispatch as the rendered element is written: `{...props}` is
    spread after the component's own `onFocus` and `onBlur`, so a host
    that passes either one replaces the component's handler with its own,
    and that event no longer touches the component's state.
   */
  function HandleAsWritten(cfg: Config, hh: HostHandlers, s: State, e: Event): (t: Transition)
    ensures e == Focused && hh.onFocus ==> t == Transition(s, [])
    ensures e == Blurred && hh.onBlur ==> t == Transition(s, [])
    ensures !(e == Focused && hh.onFocus) && !(e == Blurred && hh.onBlur) ==> t == Handle(cfg, s, e)
  {
    match e
    case Focused => if hh.onFocus then Transition(s, []) else Handle(cfg, s, e)
    case Blurred => if hh.onBlur then Transition(s, []) else Handle(cfg, s, e)
    case Typed(_) => Handle(cfg, s, e)
  }

  /** A blurred field showing a formatted negative number, as a host formatter might print it. */
  const Formatted := State("(20.4)", "-20.4")

  /**
    As written: when the host passes `onFocus`, focusing a field blurred to
    formatted text keeps that text. Inserting "1" before the closing
    parenthesis still reaches the component's change handler, which rejects
    the result by the decimal grammar, so inserting a digit into the
    formatted text is rejected.
   */
  lemma HostOnFocusBlocksEditing(cfg: Config)
    requires cfg.acceptsInput == DecimalScanner.Accepts
    ensures var focused := HandleAsWritten(cfg, HostHandlers(true, false), Formatted, Focused).next;
            && focused.display == "(20.4)"
            && HandleAsWritten(cfg, HostHandlers(true, false), focused, Typed("(20.41)")) == Transition(focused, [])
  {
    DecimalSyntax.ForeignCharacterRejected("(20.41)", 0);
    DecimalScanner.AcceptsIffValid("(20.41)");
  }

  /**
    As intended: the component's own focus handler always runs, so the user
    is back on the raw text and the same keystroke is accepted.
   */
  lemma FocusResumesEditing(cfg: Config)
    requires cfg.acceptsInput == DecimalScanner.Accepts
    ensures var focused := Handle(cfg, Formatted, Focused).next;
            && focused.display == "-20.4"
            && OnChange(cfg, focused, "-20.41").next == State("-20.41", "-20.41")
  {
    var t := "-20.41";
    assert DecimalSyntax.AllowedAt(t, 0) && DecimalSyntax.AllowedAt(t, 1) && DecimalSyntax.AllowedAt(t, 2);
    assert DecimalSyntax.AllowedAt(t, 3) && DecimalSyntax.AllowedAt(t, 4) && DecimalSyntax.AllowedAt(t, 5);
    DecimalSyntax.ValidIffWellShaped(t);
    DecimalScanner.AcceptsIffValid(t);
  }
}

=== FILE: decimal_scanner.dfy ===
/**
  An executable left-to-right scanner for the general decimal-syntax check:
  a six-phase automaton that reads one character at a time and stops at the
  first character no acceptable input could contain. It is proved to accept
  exactly what `DecimalSyntax.IsValidDecimalInput` accepts.
 */
module DecimalScanner {
  import opened DecimalSyntax

  /** How much of a literal a left-to-right reading has seen so far. */
  datatype Phase =
    | Start       // nothing read
    | Signed      // a lone sign
    | Whole       // an optional sign and at least one digit, no dot
    | LeadingDot  // an optional sign and a dot, no digit
    | Fraction    // a dot and at least one digit, on either side of it
    | Rejected    // no continuation can become acceptable

  function Step(q: Phase, c: char): Phase {
    match q
    case Start =>
      if IsSign(c) then Signed
      else if IsDigit(c) then Whole
      else if c == '.' then LeadingDot
      else Rejected
    case Signed =>
      if IsDigit(c) then Whole
      else if c == '.' then LeadingDot
      else Rejected
    case Whole =>
      if IsDigit(c) then Whole
      else if c == '.' then Fraction
      else Rejected
    case LeadingDot =>
      if IsDigit(c) then Fraction else Rejected
    case Fraction =>
      if IsDigit(c) then Fraction else Rejected
    case Rejected => Rejected
  }

  /** The phase reached after reading all of `s` from the left. */
  function Run(s: string): Phase
    decreases |s|
  {
    if |s| == 0 then Start else Step(Run(s[..|s| - 1]), s[|s| - 1])
  }

  /** The scanner's verdict: acceptable unless the automaton got stuck. */
  predicate Accepts(s: string) {
    Run(s) != Rejected
  }

  /** What each phase means, stated on the whole string read so far. */
  ghost function Classify(s: string): Phase {
    if !WellShaped(s) then Rejected
    else if |s| == 0 then Start
    else if '.' in s then (if HasDigit(s) then Fraction else LeadingDot)
    else if HasDigit(s) then Whole
    else Signed
  }

  /** How appending one character changes the shape of a string. */
  lemma WellShapedSnoc(p: string, c: char)
    ensures WellShaped(p + [c]) <==>
            && WellShaped(p)
            && (IsDigit(c) || (c == '.' && '.' !in p) || (|p| == 0 && IsSign(c)))
    ensures '.' in p + [c] <==> '.' in p || c == '.'
    ensures HasDigit(p + [c]) <==> HasDigit(p) || IsDigit(c)
  {
    var s := p + [c];
    assert s[|p|] == c;
    assert forall i | 0 <= i < |p| :: s[i] == p[i];
    if WellShaped(s) {
      assert AllowedAt(s, |p|);
      forall i | 0 <= i < |p|
        ensures AllowedAt(p, i)
      {
        assert AllowedAt(s, i);
      }
    }
    if WellShaped(p) && (IsDigit(c) || (c == '.' && '.' !in p) || (|p| == 0 && IsSign(c))) {
      forall i | 0 <= i < |s|
        ensures AllowedAt(s, i)
      {
        if i < |p| { assert AllowedAt(p, i); }
      }
      forall i, j | 0 <= i < j < |s|
        ensures !(s[i] == '.' && s[j] == '.')
      {
        if j == |p| && c == '.' { assert s[i] == p[i]; }
      }
    }
    if HasDigit(s) && !IsDigit(c) {
      var i :| 0 <= i < |s| && IsDigit(s[i]);
      assert i < |p| && IsDigit(p[i]);
    }
  }

  /** The automaton's phase after reading `s` is exactly the phase `s` belongs to. */
  lemma {:induction false} RunClassifies(s: string)
    ensures Run(s) == Classify(s)
    decreases |s|
  {
    if |s| > 0 {
      var p, c := s[..|s| - 1], s[|s| - 1];
      assert s == p + [c];
      RunClassifies(p);
      WellShapedSnoc(p, c);
    }
  }

  /** The scanner agrees with the general decimal-syntax check on every input. */
  lemma AcceptsIffValid(s: string)
    ensures Accepts(s) <==> IsValidDecimalInput(s)
  {
    RunClassifies(s);
    ValidIffWellShaped(s);
  }

  /** Once the automaton is stuck, no further character can unstick it. */
  lemma {:induction false} RejectedIsFinal(s: string, n: nat)
    requires n <= |s|
    requires Run(s[..n]) == Rejected
    ensures Run(s) == Rejected
    decreases |s| - n
  {
    if n == |s| {
      assert s[..n] == s;
    } else {
      var front := s[..|s| - 1];
      assert front[..n] == s[..n];
      RejectedIsFinal(front, n);
    }
  }

  /**
    `isValidDecimalInput` as a single left-to-right pass that stops at the
    first character that rules the input out.
   */
  method ScanDecimalInput(input: string) returns (ok: bool)
    ensures ok <==> IsValidDecimalInput(input)
  {
    var q := Start;
    var i := 0;
    while i < |input| && q != Rejected
      invariant 0 <= i <= |input|
      invariant q == Run(input[..i])
    {
      assert input[..i + 1][..i] == input[..i];
      q := Step(q, input[i]);
      i := i + 1;
    }
    if q == Rejected {
      RejectedIsFinal(input, i);
    } else {
      assert input[..i] == input;
    }
    AcceptsIffValid(input);
    ok := q != Rejected;
  }
}

=== FILE: decimal_scenarios.dfy ===
/** The scenario table of the decimal-syntax tests (`model.test.ts`), as lemmas. */
module DecimalScenarios {
  import opened DecimalSyntax

  /** Inputs with letters, or with a second dot, are rejected. */
  lemma RejectedScenarios()
    ensures !IsValidDecimalInput("foo") && !IsValidDecimalInput("foo1") && !IsValidDecimalInput("1foo")
    ensures !IsValidDecimalInput("1.1.")
  {
    ForeignCharacterRejected("foo", 0);
    ForeignCharacterRejected("foo1", 0);
    ForeignCharacterRejected("1foo", 1);
    SecondDotRejected("1.1.", 1, 3);
  }

  /** Unsigned literals match the regular expression and are accepted. */
  lemma UnsignedScenarios()
    ensures Unsigned("0") && Unsigned("0.") && Unsigned(".0")
    ensures Unsigned("1") && Unsigned("1.") && Unsigned(".1")
    ensures Unsigned("1.1")
    ensures IsValidDecimalInput("0") && IsValidDecimalInput("0.") && IsValidDecimalInput(".0")
    ensures IsValidDecimalInput("1") && IsValidDecimalInput("1.") && IsValidDecimalInput(".1")
    ensures IsValidDecimalInput("1.1")
  {
    assert DigitRun("0") && DigitRun("1");
    assert "0."[..1] == "0" && "0."[2..] == "";
    assert "1."[..1] == "1" && "1."[2..] == "";
    assert "1.1"[..1] == "1" && "1.1"[2..] == "1";
    assert ".0"[1..] == "0" && ".1"[1..] == "1";
  }

  /** Signed literals are accepted. */
  lemma SignedScenarios()
    ensures IsValidDecimalInput("-.0") && IsValidDecimalInput("+.0")
    ensures IsValidDecimalInput("-0") && IsValidDecimalInput("+0")
    ensures IsValidDecimalInput("-.1") && IsValidDecimalInput("+.1")
    ensures IsValidDecimalInput("-1") && IsValidDecimalInput("+1")
    ensures IsValidDecimalInput("-1.1") && IsValidDecimalInput("+1.1")
  {
    UnsignedScenarios();
    SignedLiteral('-', ".0");
    SignedLiteral('+', ".0");
    SignedLiteral('-', "0");
    SignedLiteral('+', "0");
    SignedLiteral('-', ".1");
    SignedLiteral('+', ".1");
    SignedLiteral('-', "1");
    SignedLiteral('+', "1");
    SignedLiteral('-', "1.1");
    SignedLiteral('+', "1.1");
  }

  /** The forgivable partial tokens are accepted. */
  lemma ExceptionScenarios()
    ensures IsValidDecimalInput(".") && IsValidDecimalInput("+") && IsValidDecimalInput("-")
    ensures IsValidDecimalInput("+.") && IsValidDecimalInput("-.") && IsValidDecimalInput("")
  {
    assert "." == Exceptions[1] && "-" == Exceptions[2] && "+" == Exceptions[3];
    assert "-." == Exceptions[4] && "+." == Exceptions[5];
  }
}

=== FILE: decimal_syntax.dfy ===
/**
  The general decimal-syntax check of `model.ts`: a string is acceptable input
  when it is one of six forgivable partial tokens, or when it matches the
  regular expression `^[+-]?([0-9]+([.][0-9]*)?|[.][0-9]+)$`.

  The regular expression is written here as a hand-rolled predicate, one
  predicate per alternative. `WellShaped` is an independent, purely
  positional description of the same language, and `ValidIffWellShaped`
  proves the two agree.
 */
module DecimalSyntax {

  predicate IsDigit(c: char) { '0' <= c <= '9' }

  predicate IsSign(c: char) { c == '+' || c == '-' }

  /** `[0-9]*` */
  predicate Digits(s: string) {
    forall i | 0 <= i < |s| :: IsDigit(s[i])
  }

  /** `[0-9]+` */
  predicate DigitRun(s: string) {
    |s| > 0 && Digits(s)
  }

  /** The partial inputs accepted although the regular expression rejects them. */
  const Exceptions: seq<string> := ["", ".", "-", "+", "-.", "+."]

  /** `[0-9]+([.][0-9]*)?` */
  predicate WholeAlternative(b: string) {
    || DigitRun(b)
    || exists k | 0 < k < |b| :: b[k] == '.' && DigitRun(b[..k]) && Digits(b[k + 1..])
  }

  /** `[.][0-9]+` */
  predicate FractionAlternative(b: string) {
    |b| > 1 && b[0] == '.' && DigitRun(b[1..])
  }

  /** `([0-9]+([.][0-9]*)?|[.][0-9]+)` */
  predicate Unsigned(b: string) {
    WholeAlternative(b) || FractionAlternative(b)
  }

  /**
    `^[+-]?(...)$`: an optional single leading sign, then an unsigned literal.
    Its language is exactly the well-shaped strings holding at least one digit.
   */
  function MatchesDecimalRe(s: string): (r: bool)
    ensures r <==> WellShaped(s) && HasDigit(s)
  {
    MatchShape(s);
    || Unsigned(s)
    || (|s| > 0 && IsSign(s[0]) && Unsigned(s[1..]))
  }

  /**
    `isValidDecimalInput`: a forgivable token, or a match of the regular
    expression. The forgivable tokens are exactly the accepted inputs that
    hold no digit, so none of them is a match.
   */
  function IsValidDecimalInput(input: string): (r: bool)
    ensures input in Exceptions <==> r && !HasDigit(input)
    ensures input in Exceptions ==> !MatchesDecimalRe(input)
  {
    input in Exceptions || MatchesDecimalRe(input)
  }

  predicate HasDigit(s: string) {
    exists i | 0 <= i < |s| :: IsDigit(s[i])
  }

  /** Characters the regular expression can ever consume at position `i`. */
  predicate AllowedAt(s: string, i: int)
    requires 0 <= i < |s|
  {
    IsDigit(s[i]) || s[i] == '.' || (i == 0 && IsSign(s[i]))
  }

  /**
    A positional description of the accepted language: every character is a
    digit, a dot, or a sign in the first position, and there is at most one dot.
   */
  predicate WellShaped(s: string) {
    && (forall i | 0 <= i < |s| :: AllowedAt(s, i))
    && (forall i, j | 0 <= i < j < |s| :: !(s[i] == '.' && s[j] == '.'))
  }

  lemma DigitsShaped(s: string, lo: int, hi: int)
    requires 0 <= lo <= hi <= |s|
    requires Digits(s[lo..hi])
    ensures forall i | lo <= i < hi :: IsDigit(s[i])
  {
    forall i | lo <= i < hi
      ensures IsDigit(s[i])
    {
      assert s[lo..hi][i - lo] == s[i];
    }
  }

  /** Every unsigned match is well shaped, holds no sign at all, and holds a digit. */
  lemma UnsignedShaped(b: string)
    requires Unsigned(b)
    ensures forall i | 0 <= i < |b| :: IsDigit(b[i]) || b[i] == '.'
    ensures forall i, j | 0 <= i < j < |b| :: !(b[i] == '.' && b[j] == '.')
    ensures HasDigit(b)
  {
    if DigitRun(b) {
      assert IsDigit(b[0]);
    } else if FractionAlternative(b) {
      DigitsShaped(b, 1, |b|);
      assert IsDigit(b[1]);
    } else {
      var k :| 0 < k < |b| && b[k] == '.' && DigitRun(b[..k]) && Digits(b[k + 1..]);
      DigitsShaped(b, 0, k);
      DigitsShaped(b, k + 1, |b|);
      assert IsDigit(b[0]);
    }
  }

  /** A well-shaped string with no sign and at least one digit is an unsigned match. */
  lemma UnsignedFromShape(b: string)
    requires forall i | 0 <= i < |b| :: IsDigit(b[i]) || b[i] == '.'
    requires forall i, j | 0 <= i < j < |b| :: !(b[i] == '.' && b[j] == '.')
    requires exists i | 0 <= i < |b| :: IsDigit(b[i])
    ensures Unsigned(b)
  {
    if '.' !in b {
      assert DigitRun(b);
    } else {
      var k :| 0 <= k < |b| && b[k] == '.';
      assert Digits(b[..k]);
      assert Digits(b[k + 1..]);
      if k == 0 {
        assert |b| > 1;
        assert FractionAlternative(b);
      } else {
        assert WholeAlternative(b);
      }
    }
  }

  /** A string made of dots alone, with no two dots, has at most one character. */
  lemma DotsOnlyShort(b: string)
    ensures (forall i | 0 <= i < |b| :: IsDigit(b[i]) || b[i] == '.') &&
            (forall i, j | 0 <= i < j < |b| :: !(b[i] == '.' && b[j] == '.')) &&
            !(exists i | 0 <= i < |b| :: IsDigit(b[i]))
            ==> |b| < 2
  {
    if && |b| >= 2
       && (forall i | 0 <= i < |b| :: IsDigit(b[i]) || b[i] == '.')
       && !(exists i | 0 <= i < |b| :: IsDigit(b[i]))
    {
      assert b[0] == '.' && b[1] == '.';
    }
  }

  /**
    The regular expression's language, stated positionally: a string matches
    precisely when it is well shaped and holds at least one digit.
   */
  lemma MatchShape(s: string)
    ensures (|| Unsigned(s)
             || (|s| > 0 && IsSign(s[0]) && Unsigned(s[1..])))
            <==> WellShaped(s) && HasDigit(s)
  {
    if Unsigned(s) {
      UnsignedShaped(s);
    } else if |s| > 0 && IsSign(s[0]) && Unsigned(s[1..]) {
      var b := s[1..];
      UnsignedShaped(b);
      forall i | 0 <= i < |s|
        ensures AllowedAt(s, i)
      {
        if i > 0 { assert s[i] == b[i - 1]; }
      }
      forall i, j | 0 <= i < j < |s|
        ensures !(s[i] == '.' && s[j] == '.')
      {
        if i > 0 { assert s[i] == b[i - 1] && s[j] == b[j - 1]; }
      }
      var k :| 0 <= k < |b| && IsDigit(b[k]);
      assert s[k + 1] == b[k];
    }
    if WellShaped(s) && HasDigit(s) {
      var signed := IsSign(s[0]);
      var b := if signed then s[1..] else s;
      BodyShaped(s, signed, b);
      var k :| 0 <= k < |s| && IsDigit(s[k]);
      if signed { assert b[k - 1] == s[k]; }
      UnsignedFromShape(b);
    }
  }

  /** Behind an optional leading sign, a well-shaped string holds digits and dots only, and at most one dot. */
  lemma BodyShaped(s: string, signed: bool, b: string)
    requires WellShaped(s)
    requires signed ==> |s| > 0 && b == s[1..]
    requires !signed ==> b == s && (|s| > 0 ==> !IsSign(s[0]))
    ensures forall i | 0 <= i < |b| :: IsDigit(b[i]) || b[i] == '.'
    ensures forall i, j | 0 <= i < j < |b| :: !(b[i] == '.' && b[j] == '.')
  {
    forall i | 0 <= i < |b|
      ensures IsDigit(b[i]) || b[i] == '.'
    {
      if signed { assert b[i] == s[i + 1] && AllowedAt(s, i + 1); } else { assert AllowedAt(s, i); }
    }
    forall i, j | 0 <= i < j < |b|
      ensures !(b[i] == '.' && b[j] == '.')
    {
      if signed { assert b[i] == s[i + 1] && b[j] == s[j + 1]; }
    }
  }

  /**
    The accepted language, exceptions included, is exactly the well-shaped
    strings: a string is rejected precisely when it holds a foreign character,
    a sign past the first position, or a second dot.
   */
  lemma {:induction false} ValidIffWellShaped(s: string)
    ensures IsValidDecimalInput(s) <==> WellShaped(s)
  {
    if WellShaped(s) && !HasDigit(s) {
      // No digit at all: behind the optional sign there is nothing or a lone dot.
      var signed := |s| > 0 && IsSign(s[0]);
      var b := if signed then s[1..] else s;
      BodyShaped(s, signed, b);
      DotsOnlyShort(b);
      assert b == [] || b == ['.'];
      if !signed {
        assert s == Exceptions[0] || s == Exceptions[1];
      } else {
        assert s == [s[0]] + b;
        assert s == Exceptions[2] || s == Exceptions[3] || s == Exceptions[4] || s == Exceptions[5];
      }
    }
  }

  /** An optional single sign in front of an unsigned literal keeps it a match. */
  lemma SignedLiteral(c: char, b: string)
    requires IsSign(c) && Unsigned(b)
    ensures MatchesDecimalRe([c] + b)
  {
    assert ([c] + b)[1..] == b;
  }

  /** A character outside `0-9 + - .` anywhere in the string makes it unacceptable. */
  lemma ForeignCharacterRejected(s: string, i: int)
    requires 0 <= i < |s|
    requires !IsDigit(s[i]) && !IsSign(s[i]) && s[i] != '.'
    ensures !IsValidDecimalInput(s)
  {
    ValidIffWellShaped(s);
    assert !AllowedAt(s, i);
  }

  /** A sign anywhere but the first position makes the string unacceptable. */
  lemma MisplacedSignRejected(s: string, i: int)
    requires 0 < i < |s| && IsSign(s[i])
    ensures !IsValidDecimalInput(s)
  {
    ValidIffWellShaped(s);
    assert !AllowedAt(s, i);
  }

  /** Two dots make the string unacceptable. */
  lemma SecondDotRejected(s: string, i: int, j: int)
    requires 0 <= i < j < |s| && s[i] == '.' && s[j] == '.'
    ensures !IsValidDecimalInput(s)
  {
    ValidIffWellShaped(s);
  }

  /**
    Prefix closure: every prefix of an acceptable input is acceptable, so a
    user can type any acceptable literal one character at a time. The six
    exceptions are exactly what the regular expression needs for this.
   */
  lemma {:induction false} PrefixClosed(s: string, n: nat)
    requires n <= |s|
    requires IsValidDecimalInput(s)
    ensures IsValidDecimalInput(s[..n])
  {
    ValidIffWellShaped(s);
    ValidIffWellShaped(s[..n]);
    var p := s[..n];
    forall i | 0 <= i < |p|
      ensures AllowedAt(p, i)
    {
      assert p[i] == s[i] && AllowedAt(s, i);
    }
    forall i, j | 0 <= i < j < |p|
      ensures !(p[i] == '.' && p[j] == '.')
    {
      assert p[i] == s[i] && p[j] == s[j];
    }
  }

  /**
    The exceptions are exactly the acceptable inputs that do not yet denote a
    number, and appending one digit to any acceptable input completes it into
    a match of the regular expression.
   */
  lemma {:induction false} DigitCompletes(s: string, d: char)
    requires IsDigit(d)
    ensures IsValidDecimalInput(s) <==> MatchesDecimalRe(s + [d])
    ensures s in Exceptions <==> IsValidDecimalInput(s) && !MatchesDecimalRe(s)
  {
    var t := s + [d];
    ValidIffWellShaped(s);
    ValidIffWellShaped(t);
    if IsValidDecimalInput(s) {
      forall i | 0 <= i < |t|
        ensures AllowedAt(t, i)
      {
        if i < |s| { assert t[i] == s[i] && AllowedAt(s, i); }
      }
      forall i, j | 0 <= i < j < |t|
        ensures !(t[i] == '.' && t[j] == '.')
      {
        if j < |s| { assert t[i] == s[i] && t[j] == s[j]; }
      }
      assert WellShaped(t);
      assert t[|t| - 1] == d;
      assert forall e | e in Exceptions :: |e| == 0 || !IsDigit(e[|e| - 1]);
    }
    if MatchesDecimalRe(t) {
      assert t[..|s|] == s;
      PrefixClosed(t, |s|);
    }
  }
}

=== FILE: guards.dfy ===
/**
  The numeric guards of `model.ts`: `isValidNumber`, `getFormatter` and
  `getValidator`.

  JavaScript numbers are modelled abstractly: the only distinction the guards
  draw is NaN against everything else, so a `Number` is NaN, an infinity or a
  finite value, and no arithmetic is done on it. The default string
  conversion (`Number.prototype.toString`) is a parameter.

  Both `getFormatter` and `getValidator` promise that the caller's function
  is never applied to NaN or to `undefined`. That promise is stated through
  the type: the caller's function is a partial function (`-->`) that need
  only be defined on numbers other than NaN, and the guard is well defined
  for every input all the same.
 */
module Guards {
  import opened Wrappers

  datatype Number = NaN | Infinity(negative: bool) | Finite(value: real)

  /** A function from numbers that is defined on every number but NaN. */
  ghost predicate DefinedOffNaN<T>(f: Number --> T) {
    forall v: Number | v != NaN :: f.requires(v)
  }

  /** `isValidNumber`: a present number that is not NaN. Infinities pass. */
  function IsValidNumber(candidate: Option<Number>): (r: bool)
    ensures r <==> candidate.Some? && (candidate.value.Finite? || candidate.value.Infinity?)
  {
    candidate.Some? && candidate.value != NaN
  }

  /**
    `getFormatter(format)(value)`: the empty string for `undefined` and NaN,
    otherwise the caller's formatting, or the default conversion when the
    caller supplied none.
   */
  function Format(format: Option<Number --> string>, toText: Number -> string, value: Option<Number>): (r: string)
    requires format.Some? ==> DefinedOffNaN(format.value)
    ensures !IsValidNumber(value) ==> r == ""
    ensures IsValidNumber(value) && format.Some? ==> r == format.value(value.value)
    ensures IsValidNumber(value) && format.None? ==> r == toText(value.value)
  {
    if !IsValidNumber(value) then ""
    else if format.Some? then format.value(value.value)
    else toText(value.value)
  }

  /**
    `getValidator(validate)(value)`: the value is not NaN and, when the
    caller supplied a predicate, the predicate accepts it. The predicate is
    reached only after the NaN test has passed.
   */
  function Validate(validate: Option<Number --> bool>, value: Number): (r: bool)
    requires validate.Some? ==> DefinedOffNaN(validate.value)
    ensures value == NaN ==> !r
    ensures validate.None? ==> (r <==> IsValidNumber(Some(value)))
    ensures validate.Some? ==> (r <==> value != NaN && validate.value(value))
  {
    var valid := IsValidNumber(Some(value));
    if validate.Some? then valid && validate.value(value) else valid
  }

  /**
    The formatter's output carries no information about undefined and NaN,
    whatever the caller's functions: two formatters can only disagree on a
    valid number.
   */
  lemma FormatIgnoresCallerOffNumbers(
    f: Option<Number --> string>, g: Option<Number --> string>,
    t: Number -> string, u: Number -> string, value: Option<Number>)
    requires f.Some? ==> DefinedOffNaN(f.value)
    requires g.Some? ==> DefinedOffNaN(g.value)
    requires Format(f, t, value) != Format(g, u, value)
    ensures IsValidNumber(value)
  {
  }

  /**
    When neither the caller's formatter nor the default conversion ever
    produces the empty string, an empty formatted text means exactly that
    there was no valid number.
   */
  lemma FormatEmptyIffNoNumber(format: Option<Number --> string>, toText: Number -> string, value: Option<Number>)
    requires format.Some? ==> DefinedOffNaN(format.value)
    requires format.Some? ==> forall v: Number | v != NaN :: format.value(v) != ""
    requires forall v: Number :: toText(v) != ""
    ensures Format(format, toText, value) == "" <==> !IsValidNumber(value)
  {
  }

  /** A caller's predicate can only narrow the default validator, never widen it. */
  lemma ValidateNarrowsDefault(validate: Option<Number --> bool>, value: Number)
    requires validate.Some? ==> DefinedOffNaN(validate.value)
    ensures Validate(validate, value) ==> Validate(None, value)
    ensures Validate(None, value) <==> value != NaN
  {
  }

  /**
    Validity is not finiteness: the guards reject NaN only, and both
    infinities pass the default validator and are formatted.
   */
  lemma InfinityIsValid(negative: bool, toText: Number -> string)
    ensures IsValidNumber(Some(Infinity(negative)))
    ensures Validate(None, Infinity(negative))
    ensures Format(None, toText, Some(Infinity(negative))) == toText(Infinity(negative))
  {
  }
}

=== FILE: wrappers.dfy ===
/** The optional-value datatype used for JavaScript's `undefined`. */
module Wrappers {

  /** `None` plays the part of `undefined`; `Some(v)` carries a present value. */
  datatype Option<+T> = None | Some(value: T)
}
